=== FILE: README.md ===
# Mini-freelancer bid and gig handlers, in Dafny

This project models the backend of a small freelance marketplace. Clients
post gigs. Freelancers bid on open gigs. The gig's owner hires exactly one
bid. The hire closes the gig, rejects every competing bid and notifies the
winner in real time.

The store is an immutable value. It holds a map of gigs, a map of bids and a
counter that hands out fresh document identities. Each state-changing handler
is a pure function `Store × request → (response, Store)`. Every failure
branch returns the store it was given, which models the aborted transaction.
The hire's success branch applies its three writes in one step, which models
the committed transaction. The two listings only read the store. They are
methods, because they pick documents out of a map in an arbitrary order and
then sort them.

Files and modules:

- `records.dfy` (`Records`): gigs, bids, statuses, the store, the named
  failures with their HTTP status codes and messages. It also defines the
  consistency invariant `Valid`:
  - fresh identities;
  - every bid points at an existing gig;
  - one bid per (gig, freelancer);
  - no bid by a gig's own owner;
  - a bid is pending exactly while its gig is open;
  - at most one hired bid per gig;
  - every assigned gig has a hired bid.
- `listing.dfy` (`Listing`): the shared "find, then sort by `createdAt`
  descending" query.
- `title_search.dfy` (`TitleSearch`): the case-insensitive title match.
- `gig_routes.dfy` (`GigRoutes`): gig creation and the open-gig listing.
- `bid_routes.dfy` (`BidRoutes`): bid intake, the owner-only bid listing, and
  the hire handler with its winner notification.
- `interleaving.dfy` (`Interleaving`): concurrency, modelled as any
  sequential interleaving of the state-changing handlers, plus bid intake
  split into its check and its later insert. It proves that the invariant is
  preserved along every run of atomic requests. It also proves that, even
  with split intakes interleaved, gigs never reopen and at most one hire per
  gig ever succeeds.
- `scenario.dfy` (`HireScenario`): the two-bid hiring example on a concrete
  store.

External inputs are parameters:
- the authenticated caller's identity;
- the clock (`now`, stored as `createdAt`);
- whether a socket notifier is installed (`io`).

The notification is not sent anywhere. It is returned as an optional
`HiredEvent`, addressed to the winner's room.

What the routes do, as written:
- A closed gig, a duplicate bid and a self-bid are all answered with 400 (backend/routes/bidRoutes.js:24-37).
- The hire runs its checks and its three writes inside one transaction. An aborted transaction is not retried (backend/routes/bidRoutes.js:84-144).
- Bid intake runs without a transaction. It checks for an earlier bid with a read before the write (backend/routes/bidRoutes.js:29-32). The Bid schema is not part of this model, so a database-level unique index on (gig, freelancer) is neither assumed nor ruled out.

## Model

| member | source | states |
|---|---|---|
| `BidRoutes.SubmitBid` | backend/routes/bidRoutes.js:10-54 | A bid is recorded iff all intake checks pass. Each failure has an exact condition that encodes the check order: fields, gig exists, gig open, no earlier bid by the caller, caller not the owner. A price of 0 passes; an undefined price does not. A failure leaves the store unchanged. On success exactly one pending bid by the caller is added, with the given gig, message and price, under a fresh identity. |
| `BidRoutes.SecondBidRefused` | backend/routes/bidRoutes.js:29-32 | After a freelancer's bid on a gig is recorded, any further complete bid by the same freelancer on that gig fails with "already bid" and records nothing. |
| `BidRoutes.SubmitBidPreservesValid` | backend/routes/bidRoutes.js:14-44 | Bid intake keeps every part of the store invariant, including one bid per (gig, freelancer) and no self-bids. |
| `BidRoutes.ListBids` | backend/routes/bidRoutes.js:57-80 | An unknown gig gives 404. A caller who is not the owner gets 403. Otherwise the result is exactly the bids of that gig, each once, ordered by `createdAt` descending. The store is only read. |
| `BidRoutes.Hire` | backend/routes/bidRoutes.js:83-177 | A hire succeeds iff all five preconditions hold. Each failure has an exact condition in the order bid missing (404), gig missing (404), not owner (403), gig not open (400 "Gig is already assigned"), bid not pending (400 "Bid is already processed"). A failure changes nothing and emits nothing. On success the gig becomes assigned, the chosen bid hired and every other bid of the gig rejected, and nothing else changes. Afterwards exactly one bid of the gig is hired and none is pending. The response is the hired bid as committed. The event is emitted iff the hire succeeded and a notifier exists. It goes to the winner's room and carries the gig's identity and title and the bid's identity and price. |
| `BidRoutes.HireStatusCodes` | backend/routes/bidRoutes.js:91-120 | A failed hire answers 404 exactly when the bid or its gig is missing, 403 exactly when the caller is not the gig's owner, and 400 exactly when both exist and the caller is the owner, which are the two state conflicts. The status and message of each failure are fixed by definition in `Failure.HttpStatus` and `Failure.Message`. |
| `BidRoutes.SubmitBidStatusCodes` | backend/routes/bidRoutes.js:14-37 | A refused bid answers 404 exactly when the form is complete and its gig is missing. Every other refusal answers 400. |
| `BidRoutes.NotificationIndependent` | backend/routes/bidRoutes.js:143-165 | The notification comes after the commit and is best effort. Whether a notifier exists changes neither the response nor the committed store. |
| `BidRoutes.HirePreservesValid` | backend/routes/bidRoutes.js:122-144 | The committed three-part update keeps the store invariant: at most one hired bid per gig, pending exactly while open, and every assigned gig has a winner. |
| `BidRoutes.HireOnAssignedGigFails` | backend/routes/bidRoutes.js:104-114 | A hire on any bid of an assigned gig fails and changes nothing, whoever asks. For the gig's owner the failure is "Gig is already assigned". |
| `GigRoutes.CreateGig` | backend/routes/gigRoutes.js:28-49 | Creation fails with 400 iff the title or description is empty or the budget is missing or 0. A failure adds no gig. On success exactly one open gig is added under a fresh identity. It is owned by the caller and carries the given title, description and budget. |
| `GigRoutes.ListGigs` | backend/routes/gigRoutes.js:8-25 | The result is exactly the open gigs, each once, newest first. With a non-empty search term it is further restricted to titles that match the term case-insensitively. Without a term, every open gig is listed, because `Listed` lets every title through for the empty term. |
| `GigRoutes.CreatedGigIsListed` | backend/routes/gigRoutes.js:11-41 | A gig created from a complete form is owned by its creator. It appears in the unfiltered listing and in the listing filtered by its own title. |
| `GigRoutes.CreateGigPreservesValid` | backend/routes/gigRoutes.js:36-41 | Creating a gig keeps the store invariant: the new identity is fresh and no existing bid refers to it. |
| `TitleSearch.MatchIgnoresCase` | backend/routes/gigRoutes.js:13-15 | Two titles that differ only in the case of some letters, such as "LoGo" and "logo", match the same terms. The same holds for two terms that differ only in case. |
| `TitleSearch.MatchIgnoresWholeCase` | backend/routes/gigRoutes.js:13-15 | In particular, upper- or lower-casing a whole title or term never changes whether they match. |
| `TitleSearch.EmptyTermMatchesAll` | backend/routes/gigRoutes.js:13-15 | The empty term matches every title, so it agrees with the handler skipping the filter when no term is given. |
| `TitleSearch.TitleMatchesItself` | backend/routes/gigRoutes.js:13-15 | Every title matches itself, in either case. |
| `Listing.InsertNewestFirst` | backend/routes/bidRoutes.js:74 | Inserting a document into a newest-first sequence gives a permutation of the old sequence plus that document, still newest first. |
| `Listing.CollectNewestFirst` | backend/routes/bidRoutes.js:72-74 | The query returns exactly the documents that satisfy the filter, each identity once, sorted by `createdAt` descending. |
| `Records.ValidGigShape` | backend/routes/bidRoutes.js:122-141 | In a consistent store a gig is either open with only pending bids, or assigned with one hired bid and every other bid rejected. |
| `Interleaving.StepPreservesValid` | backend/routes/bidRoutes.js:83-144 | Every atomic state-changing handler keeps the store invariant. |
| `Interleaving.RunPreservesValid` | backend/routes/bidRoutes.js:83-144 | Every store reachable from a consistent store, by any sequence of atomic requests, is consistent. |
| `Interleaving.ReachableValid` | backend/routes/bidRoutes.js:83-144 | Every store reachable from the empty start by atomic requests is consistent. |
| `Interleaving.StepKeepsGigs` | backend/routes/bidRoutes.js:19-44 | Every request, including the split intake, keeps identities below the counter, deletes no gig, changes only gig statuses and never reopens a gig. |
| `Interleaving.RunKeepsGigs` | backend/routes/bidRoutes.js:122-127 | The same holds along any run of requests, split intakes included. |
| `Interleaving.StepEvolves` | backend/routes/bidRoutes.js:122-141 | No handler deletes a document. None changes anything but a status. None reopens a gig. None changes the status of a bid that is already hired or rejected. |
| `Interleaving.HireEvolves` | backend/routes/bidRoutes.js:122-141 | On a consistent store, a hire only decides pending bids and closes an open gig. |
| `Interleaving.SplitBidEvolves` | backend/routes/bidRoutes.js:39-44 | The split intake's late insert only adds a bid under a fresh identity. |
| `Interleaving.RunEvolves` | backend/routes/bidRoutes.js:122-141 | The same holds along any run of atomic requests. |
| `Interleaving.AssignedNeverReopens` | backend/routes/bidRoutes.js:110-114 | Whatever runs afterwards, split intakes included, an assigned gig stays assigned. It needs only fresh identities, not the full invariant. |
| `Interleaving.SecondHireFails` | backend/routes/bidRoutes.js:110-114 | Take two hires on bids of the same gig, with any requests interleaved between them, split intakes included. If the first succeeds, the second fails and changes nothing. If the gig's owner sends it, the failure is "Gig is already assigned". |
| `Interleaving.AssignedGigNeverHiredAgain` | backend/routes/bidRoutes.js:110-114 | No request sequence, split intakes included, contains a successful hire on an already assigned gig. |
| `Interleaving.AtMostOneSuccessfulHirePerGig` | backend/routes/bidRoutes.js:110-144 | In any interleaving of requests, split intakes included, the gigs closed by successful hires are pairwise distinct: there is no double hire. It needs only fresh identities, not the full invariant. |
| `Interleaving.NoDoubleHireFromStart` | backend/routes/bidRoutes.js:110-144 | From the empty start, no interleaving of requests, split intakes included, hires any gig twice. |
| `BidRoutes.SubmitBidUnisolated` | backend/routes/bidRoutes.js:14-44 | Intake as the route runs it, without a transaction: the checks read one store and the insert lands in a possibly newer one. A bid is recorded iff the checks pass on the store that was read. The pending bid is added to the current store under its fresh identity, and the gigs are unchanged. With nothing in between, this is exactly `SubmitBid`. |
| `HireScenario.LateBidOnAssignedGig` | backend/routes/bidRoutes.js:19-44 | In the example store, a bid by freelancer 4 passes its checks before the owner's hire commits and is inserted after it. The result is a pending bid on an assigned gig, which breaks "a bid is pending exactly while its gig is open". |
| `HireScenario.LateBidRefusedWhenAtomic` | backend/routes/bidRoutes.js:24-26 | The same submission, run in one step after the hire, is refused because the gig is not open. |
| `HireScenario.OwnerHiresFirstBid` | backend/routes/bidRoutes.js:122-165 | A gig has two pending bids, priced 400 and 450. The owner hires the first. The first bid is hired, the second rejected and the gig assigned. Only the winner is notified, with the gig's title and the price 400. A later hire of the second bid fails with "Gig is already assigned". |

## Findings

| source | as written | input that shows it | evidently intended | confidence | as-written member | corrected member |
|---|---|---|---|---|---|---|
| backend/routes/bidRoutes.js:19-44 | Bid intake checks that the gig is open and then inserts the bid, with no transaction or conditional write. | Gig 0 with pending bids 1 and 2. Freelancer 4's bid passes its checks. The owner then hires bid 1, and the commit rejects bid 2. Bid 4 is inserted afterwards, pending, on the now assigned gig. | Intake is atomic with respect to the hire, so a bid can only be added to a gig that is still open. The hire's bulk rejection (lines 136-141), "mark all other bids as rejected", assumes it sees every bid of the gig. A late bid escapes it and stays pending. | medium, not executed | `BidRoutes.SubmitBidUnisolated`, `HireScenario.LateBidOnAssignedGig` | `BidRoutes.SubmitBid`, `BidRoutes.SubmitBidPreservesValid`, `HireScenario.LateBidRefusedWhenAtomic` |

## Left out

- Express plumbing is not modelled: routing, JSON bodies, the `protect` authentication middleware and the 500 catch-all. The caller's identity is an input.
- The `.populate(...)` display joins are not modelled. Responses carry the stored documents without the freelancer's name and email or the gig title.
- The MongoDB session and transaction machinery is not modelled: `startSession`, `abortTransaction`, `commitTransaction` and isolation levels. A commit is one atomic store update. An abort returns the old store. Concurrency is any sequential interleaving of whole requests and of split bid intakes, so races inside a transaction, retries and the write-conflict abort are not modelled.
- Failures after the commit are not modelled. In the source, an exception while re-reading the hired bid or while emitting the event (backend/routes/bidRoutes.js:147-165) is caught after `commitTransaction`. The catch block then first calls `abortTransaction` on the committed session (backend/routes/bidRoutes.js:172), which itself throws. So the JSON 500 on line 173 is never sent, and the exception escapes the handler while the hire stays committed. The model has no exceptions.
- The socket.io transport, the connection registry and delivery are not modelled. The event is a returned value, and the room is the winner's identity. The room's string name is `user-` followed by the identity.
- The Gig and Bid schemas are not part of this model. New gigs are assumed to start `open` and new bids `pending`. Schema-level validation, for example of a negative price or a null field, is not modelled. Ids are natural numbers, so a malformed id and the cast error it would cause are not modelled.
- BidRoutes.SubmitBid: bid intake is modelled as one atomic step, but the route runs it without a transaction (backend/routes/bidRoutes.js:19-44). A hire that commits between intake's read of the gig and its insert leaves a new pending bid on an assigned gig, because the hire's bulk rejection never saw it (`HireScenario.LateBidOnAssignedGig`). `PendingIffOpen` and the "no bid of an assigned gig is still pending" property therefore hold only when whole requests are interleaved. So do the lemmas built on them: `StepPreservesValid`, `RunPreservesValid`, `ReachableValid` and `RunEvolves`, which require atomic requests. The same gap lets two identical submissions both pass the earlier-bid read, so `OneBidPerFreelancer` is also lost. In `Interleaving`, the request `SplitBidRequest` runs `SubmitBidUnisolated` with its checks on any store, earlier or not. The no-reopening and no-double-hire lemmas (`AssignedNeverReopens`, `SecondHireFails`, `AssignedGigNeverHiredAgain`, `AtMostOneSuccessfulHirePerGig`) hold with split intakes interleaved.
- Fields are modelled as "missing or empty" by the empty string and `None`, which matches the source's falsy checks for strings. JavaScript values of other types in those fields are not modelled.
- `price` and `budget` are integers, not floating-point numbers. A `NaN` budget, which would be falsy, is not modelled.
- `TitleSearch.Matches`: the title filter is modelled as a literal, ASCII case-insensitive substring match. The source passes the term to a regular expression with the `i` option, so regex metacharacters and non-ASCII case folding are not modelled.
- The frontend pages and the client-side notification context are not modelled. They only display data and mirror the backend's checks.
- The clock is an input. Documents with equal `createdAt` may be listed in either order, because the database leaves ties unordered.

=== FILE: bid_routes.dfy ===
/** The bid handlers: bid intake, the owner-only bid listing, and the hiring
    coordinator with its winner notification. */
module BidRoutes {
  import opened Records
  import opened Listing

  // ---------------------------------------------------------------------
  // Bid intake
  // ---------------------------------------------------------------------

  /** The request body of a bid submission. `None` stands for a missing gig
      reference or an undefined price; the empty string for a missing or
      empty message. */
  datatype BidForm = BidForm(gigId: Option<GigId>, message: string, price: Option<int>)

  /** The presence check: gig and message must be truthy, the price only
      defined, so a price of 0 passes. */
  predicate BidFormComplete(form: BidForm) {
    form.gigId.Some? && form.message != "" && form.price.Some?
  }

  /** The caller already holds a bid on gig `g`. */
  predicate HasBidOn(s: Store, caller: UserId, g: GigId) {
    exists b :: b in s.bids && s.bids[b].gigId == g && s.bids[b].freelancerId == caller
  }

  /** Everything bid intake demands, in no particular order. */
  predicate CanBid(s: Store, caller: UserId, form: BidForm) {
    && BidFormComplete(form)
    && form.gigId.value in s.gigs
    && s.gigs[form.gigId.value].status == Open
    && !HasBidOn(s, caller, form.gigId.value)
    && !IsOwner(s.gigs[form.gigId.value], caller)
  }

  /** Records a pending bid by the caller. The checks run in the order
      fields, gig exists, gig open, no earlier bid, not the owner; the first
      that fails decides the response and nothing is written. */
  function SubmitBid(s: Store, caller: UserId, form: BidForm, now: int): (r: Reply<Entry<Bid>>)
    ensures r.result.Ok? <==> CanBid(s, caller, form)
    ensures r.result.Err? ==> r.store == s
    ensures r.result == Err(MissingFields) <==> !BidFormComplete(form)
    ensures r.result == Err(GigNotFound) <==>
      BidFormComplete(form) && form.gigId.value !in s.gigs
    ensures r.result == Err(GigNotOpen) <==>
      BidFormComplete(form) && form.gigId.value in s.gigs
      && s.gigs[form.gigId.value].status != Open
    ensures r.result == Err(AlreadyBid) <==>
      BidFormComplete(form) && form.gigId.value in s.gigs
      && s.gigs[form.gigId.value].status == Open
      && HasBidOn(s, caller, form.gigId.value)
    ensures r.result == Err(OwnGig) <==>
      BidFormComplete(form) && form.gigId.value in s.gigs
      && s.gigs[form.gigId.value].status == Open
      && !HasBidOn(s, caller, form.gigId.value)
      && IsOwner(s.gigs[form.gigId.value], caller)
    ensures r.result.Ok? ==>
      var e := r.result.value;
      && e.id == s.nextId
      && e.doc == Bid(form.gigId.value, caller, form.message, form.price.value, Pending, now)
      && r.store.bids == s.bids[e.id := e.doc]
      && r.store.gigs == s.gigs
      && r.store.nextId > e.id
    ensures r.result.Ok? && IdsBelowCounter(s) ==>
      r.result.value.id !in s.bids && |r.store.bids| == |s.bids| + 1
  {
    if !BidFormComplete(form) then
      Reply(Err(MissingFields), s)
    else
      var g := form.gigId.value;
      if g !in s.gigs then
        Reply(Err(GigNotFound), s)
      else if s.gigs[g].status != Open then
        Reply(Err(GigNotOpen), s)
      else if HasBidOn(s, caller, g) then
        Reply(Err(AlreadyBid), s)
      else if IsOwner(s.gigs[g], caller) then
        Reply(Err(OwnGig), s)
      else
        var bid := Bid(g, caller, form.message, form.price.value, Pending, now);
        var id := s.nextId;
        Reply(Ok(Entry(id, bid)), s.(bids := s.bids[id := bid], nextId := id + 1))
  }

  /** Once a freelancer's bid on a gig is recorded, the same freelancer's
      next bid on that gig is refused and records nothing. */
  lemma SecondBidRefused(s: Store, caller: UserId, form: BidForm, now: int, form2: BidForm, now2: int)
    requires SubmitBid(s, caller, form, now).result.Ok?
    requires BidFormComplete(form2) && form2.gigId == form.gigId
    ensures var s1 := SubmitBid(s, caller, form, now).store;
      var r2 := SubmitBid(s1, caller, form2, now2);
      r2.result == Err(AlreadyBid) && r2.store == s1
  {
    var r1 := SubmitBid(s, caller, form, now);
    assert r1.store.bids[r1.result.value.id].freelancerId == caller;
  }

  /** Bid intake keeps the store consistent. */
  lemma SubmitBidPreservesValid(s: Store, caller: UserId, form: BidForm, now: int)
    requires Valid(s)
    ensures Valid(SubmitBid(s, caller, form, now).store)
  {
    var r := SubmitBid(s, caller, form, now);
    if r.result.Ok? {
      var s' := r.store;
      var id := s.nextId;
      var g := form.gigId.value;
      assert id !in s.bids;
      forall gg | gg in s'.gigs && s'.gigs[gg].status == Assigned
        ensures exists b :: b in s'.bids && s'.bids[b].gigId == gg && s'.bids[b].status == Hired
      {
        var w :| w in s.bids && s.bids[w].gigId == gg && s.bids[w].status == Hired;
        assert w in s'.bids && s'.bids[w] == s.bids[w];
      }
    }
  }

  /** Bid intake as the route runs it, outside any transaction: the checks
      read the store as `read`, and the insert lands in the store as `cur`,
      which other requests may have changed in between. With nothing in
      between it is `SubmitBid`. */
  function SubmitBidUnisolated(read: Store, cur: Store, caller: UserId, form: BidForm, now: int): (r: Reply<Entry<Bid>>)
    ensures r.result.Ok? <==> CanBid(read, caller, form)
    ensures r.result.Err? ==> r.store == cur
    ensures r.result.Ok? ==>
      && r.result.value.id == cur.nextId
      && r.result.value.doc == Bid(form.gigId.value, caller, form.message, form.price.value, Pending, now)
      && r.store.bids == cur.bids[cur.nextId := r.result.value.doc]
      && r.store.gigs == cur.gigs
      && r.store.nextId == cur.nextId + 1
    ensures read == cur ==> r == SubmitBid(cur, caller, form, now)
  {
    var checked := SubmitBid(read, caller, form, now);
    if checked.result.Err? then
      Reply(checked.result, cur)
    else
      var bid := checked.result.value.doc;
      var id := cur.nextId;
      Reply(Ok(Entry(id, bid)), cur.(bids := cur.bids[id := bid], nextId := id + 1))
  }

  // ---------------------------------------------------------------------
  // Bid query
  // ---------------------------------------------------------------------

  function BidCreatedAt(b: Bid): int { b.createdAt }

  /** The owner-only listing of a gig's bids: 404 for an unknown gig, 403
      for anyone but its owner, otherwise every bid of the gig exactly once,
      newest first. The store is only read. */
  method ListBids(s: Store, caller: UserId, gigId: GigId) returns (r: Result<seq<Entry<Bid>>>)
    ensures r == Err(GigNotFound) <==> gigId !in s.gigs
    ensures r == Err(NotAuthorizedToView) <==> gigId in s.gigs && !IsOwner(s.gigs[gigId], caller)
    ensures r.Ok? <==> gigId in s.gigs && IsOwner(s.gigs[gigId], caller)
    ensures r.Ok? ==>
      && (forall e :: e in r.value <==> e.id in s.bids && e.doc == s.bids[e.id] && e.doc.gigId == gigId)
      && DistinctIds(r.value)
      && NewestFirst(r.value, BidCreatedAt)
  {
    if gigId !in s.gigs {
      return Err(GigNotFound);
    }
    if !IsOwner(s.gigs[gigId], caller) {
      return Err(NotAuthorizedToView);
    }
    var bids := CollectNewestFirst(s.bids, (b: Bid) => b.gigId == gigId, BidCreatedAt);
    r := Ok(bids);
  }

  // ---------------------------------------------------------------------
  // Hiring coordinator
  // ---------------------------------------------------------------------

  /** The real-time event for the winner, delivered to the room of user
      `room` (the room named "user-" followed by that identity). */
  datatype HiredEvent = HiredEvent(
    room: UserId,
    text: string,
    gigId: GigId,
    gigTitle: string,
    bidId: BidId,
    price: int)

  /** The response, the store after the call, and the notification that
      was emitted, if any. */
  datatype HireOutcome = HireOutcome(result: Result<Entry<Bid>>, store: Store, notice: Option<HiredEvent>)

  /** All five preconditions of a hire, in no particular order. */
  predicate CanHire(s: Store, caller: UserId, bidId: BidId) {
    && bidId in s.bids
    && s.bids[bidId].gigId in s.gigs
    && IsOwner(s.gigs[s.bids[bidId].gigId], caller)
    && s.gigs[s.bids[bidId].gigId].status == Open
    && s.bids[bidId].status == Pending
  }

  /** `s'` is `s` after bid `w` won its gig: the gig is assigned, `w` is
      hired, every other bid of the gig is rejected, and nothing else
      changed. */
  ghost predicate HireApplied(s: Store, s': Store, w: BidId)
    requires w in s.bids && s.bids[w].gigId in s.gigs
  {
    var g := s.bids[w].gigId;
    && s'.nextId == s.nextId
    && s'.gigs == s.gigs[g := s.gigs[g].(status := Assigned)]
    && s'.bids.Keys == s.bids.Keys
    && (forall b :: b in s.bids && s.bids[b].gigId != g ==> s'.bids[b] == s.bids[b])
    && s'.bids[w] == s.bids[w].(status := Hired)
    && (forall b :: b in s.bids && s.bids[b].gigId == g && b != w ==>
          s'.bids[b] == s.bids[b].(status := Rejected))
  }

  /** The bulk update of the hire: every bid of gig `g` other than `keep`
      gets `status`. */
  function UpdateOthers(bids: map<BidId, Bid>, g: GigId, keep: BidId, status: BidStatus): map<BidId, Bid> {
    map b | b in bids :: if bids[b].gigId == g && b != keep then bids[b].(status := status) else bids[b]
  }

  function HiredText(title: string): string {
    "You have been hired for " + title + "!"
  }

  /** The hire handler. Five checks run in a fixed order, and the first that
      fails decides the response with the store untouched (the transaction
      is aborted). When all pass, the gig update, the winner update and the
      bulk rejection of the other bids commit together. Only then, and only
      when a notifier `io` is present, is the winner's event emitted; its
      presence never affects the response or the store. */
  function Hire(s: Store, caller: UserId, bidId: BidId, io: bool): (r: HireOutcome)
    ensures r.result.Ok? <==> CanHire(s, caller, bidId)
    ensures r.result.Err? ==> r.store == s && r.notice == None
    ensures r.result == Err(BidNotFound) <==> bidId !in s.bids
    ensures r.result == Err(GigNotFound) <==>
      bidId in s.bids && s.bids[bidId].gigId !in s.gigs
    ensures r.result == Err(NotAuthorizedToHire) <==>
      bidId in s.bids && s.bids[bidId].gigId in s.gigs
      && !IsOwner(s.gigs[s.bids[bidId].gigId], caller)
    ensures r.result == Err(GigAlreadyAssigned) <==>
      bidId in s.bids && s.bids[bidId].gigId in s.gigs
      && IsOwner(s.gigs[s.bids[bidId].gigId], caller)
      && s.gigs[s.bids[bidId].gigId].status != Open
    ensures r.result == Err(BidAlreadyProcessed) <==>
      bidId in s.bids && s.bids[bidId].gigId in s.gigs
      && IsOwner(s.gigs[s.bids[bidId].gigId], caller)
      && s.gigs[s.bids[bidId].gigId].status == Open
      && s.bids[bidId].status != Pending
    ensures r.result.Ok? ==>
      && HireApplied(s, r.store, bidId)
      && r.result.value == Entry(bidId, r.store.bids[bidId])
      && r.result.value.doc.status == Hired
    ensures r.result.Ok? ==>
      var g := s.bids[bidId].gigId;
      && r.store.gigs[g].status == Assigned
      && (forall b :: b in r.store.bids && r.store.bids[b].gigId == g ==>
            (r.store.bids[b].status == Hired <==> b == bidId)
            && r.store.bids[b].status != Pending)
    ensures r.notice.Some? <==> r.result.Ok? && io
    ensures r.notice.Some? ==>
      var bid := s.bids[bidId];
      var gig := s.gigs[bid.gigId];
      r.notice.value == HiredEvent(bid.freelancerId, HiredText(gig.title), bid.gigId, gig.title, bidId, bid.price)
  {
    if bidId !in s.bids then
      HireOutcome(Err(BidNotFound), s, None)
    else
      var bid := s.bids[bidId];
      if bid.gigId !in s.gigs then
        HireOutcome(Err(GigNotFound), s, None)
      else
        var gig := s.gigs[bid.gigId];
        if !IsOwner(gig, caller) then
          HireOutcome(Err(NotAuthorizedToHire), s, None)
        else if gig.status != Open then
          HireOutcome(Err(GigAlreadyAssigned), s, None)
        else if bid.status != Pending then
          HireOutcome(Err(BidAlreadyProcessed), s, None)
        else
          var gigs' := s.gigs[bid.gigId := gig.(status := Assigned)];
          var bids1 := s.bids[bidId := bid.(status := Hired)];
          var bids2 := UpdateOthers(bids1, bid.gigId, bidId, Rejected);
          var committed := s.(gigs := gigs', bids := bids2);
          var notice :=
            if io then Some(HiredEvent(bid.freelancerId, HiredText(gig.title), bid.gigId, gig.title, bidId, bid.price))
            else None;
          HireOutcome(Ok(Entry(bidId, committed.bids[bidId])), committed, notice)
  }

  /** The notification is best effort: whether a notifier is present changes
      neither the response nor the committed store. */
  lemma NotificationIndependent(s: Store, caller: UserId, bidId: BidId)
    ensures Hire(s, caller, bidId, true).result == Hire(s, caller, bidId, false).result
    ensures Hire(s, caller, bidId, true).store == Hire(s, caller, bidId, false).store
  {
  }

  /** A hire keeps the store consistent. */
  lemma HirePreservesValid(s: Store, caller: UserId, bidId: BidId, io: bool)
    requires Valid(s)
    ensures Valid(Hire(s, caller, bidId, io).store)
  {
    var r := Hire(s, caller, bidId, io);
    if r.result.Ok? {
      var s' := r.store;
      var g := s.bids[bidId].gigId;
      forall gg | gg in s'.gigs && s'.gigs[gg].status == Assigned
        ensures exists b :: b in s'.bids && s'.bids[b].gigId == gg && s'.bids[b].status == Hired
      {
        if gg == g {
          assert s'.bids[bidId].gigId == gg && s'.bids[bidId].status == Hired;
        } else {
          var w :| w in s.bids && s.bids[w].gigId == gg && s.bids[w].status == Hired;
          assert s'.bids[w] == s.bids[w];
        }
      }
      forall b1, b2 | b1 in s'.bids && b2 in s'.bids
        && s'.bids[b1].status == Hired && s'.bids[b2].status == Hired
        && s'.bids[b1].gigId == s'.bids[b2].gigId
        ensures b1 == b2
      {
        if s.bids[b1].gigId != g {
          assert s'.bids[b1] == s.bids[b1] && s'.bids[b2] == s.bids[b2];
        }
      }
    }
  }

  /** The status codes of the hire's failures: 404 exactly when the bid or
      its gig is missing, 403 exactly when the caller is not the owner, and
      400 for the two state conflicts. */
  lemma HireStatusCodes(s: Store, caller: UserId, bidId: BidId, io: bool)
    ensures var r := Hire(s, caller, bidId, io);
      r.result.Err? ==>
        && (r.result.failure.HttpStatus() == 404 <==> !(bidId in s.bids && s.bids[bidId].gigId in s.gigs))
        && (r.result.failure.HttpStatus() == 403 <==>
              bidId in s.bids && s.bids[bidId].gigId in s.gigs && !IsOwner(s.gigs[s.bids[bidId].gigId], caller))
        && (r.result.failure.HttpStatus() == 400 <==>
              bidId in s.bids && s.bids[bidId].gigId in s.gigs && IsOwner(s.gigs[s.bids[bidId].gigId], caller))
  {
  }

  /** The status codes of bid intake's failures: 404 exactly when the gig is
      missing, 400 for every other refusal. */
  lemma SubmitBidStatusCodes(s: Store, caller: UserId, form: BidForm, now: int)
    ensures var r := SubmitBid(s, caller, form, now);
      r.result.Err? ==>
        && (r.result.failure.HttpStatus() == 404 <==> BidFormComplete(form) && form.gigId.value !in s.gigs)
        && (r.result.failure.HttpStatus() != 404 ==> r.result.failure.HttpStatus() == 400)
  {
  }

  /** Once a gig is assigned, no hire on any of its bids succeeds, whoever
      asks: the store stays as it is, and the gig's owner is told the gig is
      already assigned. */
  lemma HireOnAssignedGigFails(s: Store, caller: UserId, bidId: BidId, io: bool)
    requires bidId in s.bids && s.bids[bidId].gigId in s.gigs
    requires s.gigs[s.bids[bidId].gigId].status == Assigned
    ensures var r := Hire(s, caller, bidId, io);
      && r.result.Err? && r.store == s && r.notice == None
      && (IsOwner(s.gigs[s.bids[bidId].gigId], caller) ==> r.result == Err(GigAlreadyAssigned))
  {
  }
}

=== FILE: gig_routes.dfy ===
/** The gig handlers: the public listing of open gigs with its optional
    title search, and gig creation by an authenticated caller. */
module GigRoutes {
  import opened Records
  import opened Listing
  import opened TitleSearch

  /** The request body of a gig creation. The empty string stands for a
      missing or empty text field; `None` for a missing budget. */
  datatype GigForm = GigForm(title: string, description: string, budget: Option<int>)

  /** JavaScript truthiness of the three fields: empty text and a zero or
      missing budget are falsy. */
  predicate GigFormComplete(form: GigForm) {
    form.title != "" && form.description != "" && form.budget.Some? && form.budget.value != 0
  }

  function GigCreatedAt(g: Gig): int { g.createdAt }

  /** The listing's filter: open gigs, and when the term is non-empty, only
      those whose title matches it. */
  predicate Listed(g: Gig, search: string) {
    g.status == Open && (search == "" || Matches(g.title, search))
  }

  /** Creates a gig owned by the caller, stamped with the time `now`. */
  function CreateGig(s: Store, caller: UserId, form: GigForm, now: int): (r: Reply<Entry<Gig>>)
    ensures r.result.Err? <==> !GigFormComplete(form)
    ensures r.result.Err? ==> r.result.failure == MissingFields && r.store == s
    ensures r.result.Ok? ==>
      var e := r.result.value;
      && e.id == s.nextId
      && e.doc.owner == caller
      && e.doc.title == form.title
      && e.doc.description == form.description
      && Some(e.doc.budget) == form.budget
      && e.doc.status == Open
      && e.doc.createdAt == now
      && r.store.gigs == s.gigs[e.id := e.doc]
      && r.store.bids == s.bids
      && r.store.nextId > e.id
    ensures r.result.Ok? && IdsBelowCounter(s) ==>
      r.result.value.id !in s.gigs && |r.store.gigs| == |s.gigs| + 1
  {
    if !GigFormComplete(form) then
      Reply(Err(MissingFields), s)
    else
      var gig := Gig(caller, form.title, form.description, form.budget.value, Open, now);
      var id := s.nextId;
      Reply(Ok(Entry(id, gig)), s.(gigs := s.gigs[id := gig], nextId := id + 1))
  }

  /** The public listing: every open gig (whose title matches `search` when
      it is non-empty), each exactly once, newest first. The store is only
      read. */
  method ListGigs(s: Store, search: string) returns (r: seq<Entry<Gig>>)
    ensures forall e :: e in r <==> e.id in s.gigs && e.doc == s.gigs[e.id] && Listed(e.doc, search)
    ensures DistinctIds(r)
    ensures NewestFirst(r, GigCreatedAt)
  {
    r := CollectNewestFirst(s.gigs, (g: Gig) => Listed(g, search), GigCreatedAt);
  }

  /** A successfully created gig is open and owned by its creator, so the
      public listing shows it, and its own title finds it. */
  lemma CreatedGigIsListed(s: Store, caller: UserId, form: GigForm, now: int)
    requires GigFormComplete(form)
    ensures var r := CreateGig(s, caller, form, now);
      && r.result.Ok?
      && IsOwner(r.store.gigs[r.result.value.id], caller)
      && Listed(r.store.gigs[r.result.value.id], "")
      && Listed(r.store.gigs[r.result.value.id], form.title)
  {
    TitleMatchesItself(form.title);
  }

  /** Creating a gig keeps the store consistent. */
  lemma CreateGigPreservesValid(s: Store, caller: UserId, form: GigForm, now: int)
    requires Valid(s)
    ensures Valid(CreateGig(s, caller, form, now).store)
  {
    var r := CreateGig(s, caller, form, now);
    if r.result.Ok? {
      var s' := r.store;
      var id := s.nextId;
      assert id !in s.gigs;
      forall b | b in s'.bids
        ensures s'.bids[b].gigId != id && s'.gigs[s'.bids[b].gigId] == s.gigs[s.bids[b].gigId]
      {
        assert s.bids[b].gigId in s.gigs;
      }
      forall g | g in s'.gigs && s'.gigs[g].status == Assigned
        ensures exists b :: b in s'.bids && s'.bids[b].gigId == g && s'.bids[b].status == Hired
      {
        assert g != id && g in s.gigs;
      }
    }
  }
}

=== FILE: interleaving.dfy ===
/** Concurrent requests, modelled as an arbitrary sequential interleaving of
    the state-changing handlers. Each handler's store update is atomic: a
    failure is a rolled-back transaction (the store is handed back as it
    was) and a success commits all of its writes at once. The one exception
    is bid intake as the route runs it, whose checks may have read an older
    store than the one its insert lands in. */
module Interleaving {
  import opened Records
  import GigRoutes
  import BidRoutes

  datatype Request =
    | CreateGigRequest(caller: UserId, gigForm: GigRoutes.GigForm, now: int)
    | SubmitBidRequest(caller: UserId, bidForm: BidRoutes.BidForm, now: int)
    | HireRequest(caller: UserId, bidId: BidId, io: bool)
      /** Bid intake whose checks read the store `read`, which other
          requests may since have changed. */
    | SplitBidRequest(read: Store, caller: UserId, bidForm: BidRoutes.BidForm, now: int)

  /** A request whose whole effect is one atomic step. */
  predicate Atomic(req: Request) {
    !req.SplitBidRequest?
  }

  predicate AllAtomic(reqs: seq<Request>) {
    forall i :: 0 <= i < |reqs| ==> Atomic(reqs[i])
  }

  function Step(s: Store, req: Request): Store {
    match req
    case CreateGigRequest(caller, form, now) => GigRoutes.CreateGig(s, caller, form, now).store
    case SubmitBidRequest(caller, form, now) => BidRoutes.SubmitBid(s, caller, form, now).store
    case HireRequest(caller, bidId, io) => BidRoutes.Hire(s, caller, bidId, io).store
    case SplitBidRequest(read, caller, form, now) => BidRoutes.SubmitBidUnisolated(read, s, caller, form, now).store
  }

  function Run(s: Store, reqs: seq<Request>): Store
    decreases |reqs|
  {
    if reqs == [] then s else Run(Step(s, reqs[0]), reqs[1..])
  }

  /** The gig closed by `req`, if it is a hire that succeeds on `s`. */
  function HiredBy(s: Store, req: Request): seq<GigId> {
    if req.HireRequest? && BidRoutes.Hire(s, req.caller, req.bidId, req.io).result.Ok? then
      [s.bids[req.bidId].gigId]
    else
      []
  }

  /** The gigs closed by the successful hires of a run, in commit order. */
  function HiredGigs(s: Store, reqs: seq<Request>): seq<GigId>
    decreases |reqs|
  {
    if reqs == [] then [] else HiredBy(s, reqs[0]) + HiredGigs(Step(s, reqs[0]), reqs[1..])
  }

  // ---------------------------------------------------------------------
  // How a store may change
  // ---------------------------------------------------------------------

  /** Only the status of a gig changes, and never from assigned back to open. */
  predicate GigEvolves(a: Gig, b: Gig) {
    b == a.(status := b.status) && (a.status == Assigned ==> b.status == Assigned)
  }

  /** Only the status of a bid changes, and only away from pending. */
  predicate BidEvolves(a: Bid, b: Bid) {
    b == a.(status := b.status) && (a.status != Pending ==> b.status == a.status)
  }

  /** The gigs of `s'` can follow those of `s`: none disappears, and each
      one evolves. */
  ghost predicate GigsEvolve(s: Store, s': Store) {
    forall g :: g in s.gigs ==> g in s'.gigs && GigEvolves(s.gigs[g], s'.gigs[g])
  }

  /** `s'` can follow `s`: no document disappears, and each one evolves. */
  ghost predicate Evolves(s: Store, s': Store) {
    && s.nextId <= s'.nextId
    && GigsEvolve(s, s')
    && (forall b :: b in s.bids ==> b in s'.bids && BidEvolves(s.bids[b], s'.bids[b]))
  }

  /** The split intake is the one request that can break `Valid`
      (`HireScenario.LateBidOnAssignedGig`), so this needs an atomic one. */
  lemma StepPreservesValid(s: Store, req: Request)
    requires Valid(s)
    requires Atomic(req)
    ensures Valid(Step(s, req))
  {
    match req
    case CreateGigRequest(caller, form, now) => GigRoutes.CreateGigPreservesValid(s, caller, form, now);
    case SubmitBidRequest(caller, form, now) => BidRoutes.SubmitBidPreservesValid(s, caller, form, now);
    case HireRequest(caller, bidId, io) => BidRoutes.HirePreservesValid(s, caller, bidId, io);
  }

  /** Every store reachable from a consistent one by atomic requests is
      consistent. */
  lemma {:induction false} RunPreservesValid(s: Store, reqs: seq<Request>)
    requires Valid(s)
    requires AllAtomic(reqs)
    ensures Valid(Run(s, reqs))
    decreases |reqs|
  {
    if reqs != [] {
      assert Atomic(reqs[0]);
      StepPreservesValid(s, reqs[0]);
      RunPreservesValid(Step(s, reqs[0]), reqs[1..]);
    }
  }

  /** In particular every store the service reaches from its empty start by
      atomic requests is consistent. */
  lemma ReachableValid(reqs: seq<Request>)
    requires AllAtomic(reqs)
    ensures Valid(Run(EmptyStore, reqs))
  {
    EmptyStoreValid();
    RunPreservesValid(EmptyStore, reqs);
  }

  /** Every request, the split intake included, keeps identities below the
      counter, deletes no gig, changes only gig statuses and never reopens
      a gig. This is all the no-double-hire results below need, so they
      hold even for interleavings that break `Valid`. */
  lemma StepKeepsGigs(s: Store, req: Request)
    requires IdsBelowCounter(s)
    ensures IdsBelowCounter(Step(s, req))
    ensures GigsEvolve(s, Step(s, req))
  {
    match req
    case CreateGigRequest(caller, form, now) =>
      assert s.nextId !in s.gigs;
    case SubmitBidRequest(caller, form, now) =>
    case HireRequest(caller, bidId, io) =>
    case SplitBidRequest(read, caller, form, now) =>
  }

  lemma {:induction false} RunKeepsGigs(s: Store, reqs: seq<Request>)
    requires IdsBelowCounter(s)
    ensures IdsBelowCounter(Run(s, reqs))
    ensures GigsEvolve(s, Run(s, reqs))
    decreases |reqs|
  {
    if reqs != [] {
      var s1 := Step(s, reqs[0]);
      StepKeepsGigs(s, reqs[0]);
      RunKeepsGigs(s1, reqs[1..]);
    }
  }

  /** One handler call never deletes, never reopens a gig and never
      un-decides a bid. */
  lemma StepEvolves(s: Store, req: Request)
    requires Valid(s)
    ensures Evolves(s, Step(s, req))
  {
    match req
    case CreateGigRequest(caller, form, now) =>
      assert s.nextId !in s.gigs;
    case SubmitBidRequest(caller, form, now) =>
      assert s.nextId !in s.bids;
    case HireRequest(caller, bidId, io) =>
      HireEvolves(s, caller, bidId, io);
    case SplitBidRequest(read, caller, form, now) =>
      SplitBidEvolves(s, read, caller, form, now);
  }

  lemma HireEvolves(s: Store, caller: UserId, bidId: BidId, io: bool)
    requires Valid(s)
    ensures Evolves(s, BidRoutes.Hire(s, caller, bidId, io).store)
  {
    var r := BidRoutes.Hire(s, caller, bidId, io);
    if r.result.Ok? {
      var g := s.bids[bidId].gigId;
      forall b | b in s.bids
        ensures b in r.store.bids && BidEvolves(s.bids[b], r.store.bids[b])
      {
        if s.bids[b].gigId == g {
          assert s.bids[b].status == Pending;
        }
      }
    }
  }

  lemma SplitBidEvolves(cur: Store, read: Store, caller: UserId, form: BidRoutes.BidForm, now: int)
    requires IdsBelowCounter(cur)
    ensures Evolves(cur, BidRoutes.SubmitBidUnisolated(read, cur, caller, form, now).store)
  {
    assert cur.nextId !in cur.bids;
  }

  lemma EvolvesTransitive(s1: Store, s2: Store, s3: Store)
    requires Evolves(s1, s2) && Evolves(s2, s3)
    ensures Evolves(s1, s3)
  {
  }

  /** Along any run of atomic requests, gigs stay assigned once assigned,
      decided bids keep their decision, and no document is lost. */
  lemma {:induction false} RunEvolves(s: Store, reqs: seq<Request>)
    requires Valid(s)
    requires AllAtomic(reqs)
    ensures Evolves(s, Run(s, reqs))
    decreases |reqs|
  {
    if reqs != [] {
      var s1 := Step(s, reqs[0]);
      assert Atomic(reqs[0]);
      StepEvolves(s, reqs[0]);
      StepPreservesValid(s, reqs[0]);
      RunEvolves(s1, reqs[1..]);
      EvolvesTransitive(s, s1, Run(s1, reqs[1..]));
    }
  }

  /** Whatever runs in between, a gig once assigned is never open again. */
  lemma AssignedNeverReopens(s: Store, reqs: seq<Request>, g: GigId)
    requires IdsBelowCounter(s)
    requires g in s.gigs && s.gigs[g].status == Assigned
    ensures g in Run(s, reqs).gigs && Run(s, reqs).gigs[g].status == Assigned
  {
    RunKeepsGigs(s, reqs);
  }

  /** The race: of two hires on bids of the same gig, with any requests
      interleaved between them, the later one finds the gig assigned and
      fails without changing anything, and the owner is told the gig is
      already assigned. */
  lemma SecondHireFails(
    s: Store, caller1: UserId, bid1: BidId, io1: bool,
    between: seq<Request>,
    caller2: UserId, bid2: BidId, io2: bool)
    requires IdsBelowCounter(s)
    requires BidRoutes.Hire(s, caller1, bid1, io1).result.Ok?
    requires var s2 := Run(BidRoutes.Hire(s, caller1, bid1, io1).store, between);
      bid2 in s2.bids && s2.bids[bid2].gigId == s.bids[bid1].gigId
    ensures var s2 := Run(BidRoutes.Hire(s, caller1, bid1, io1).store, between);
      var r := BidRoutes.Hire(s2, caller2, bid2, io2);
      && r.result.Err? && r.store == s2 && r.notice == None
      && (caller2 == s.gigs[s.bids[bid1].gigId].owner ==> r.result == Err(GigAlreadyAssigned))
  {
    var s1 := BidRoutes.Hire(s, caller1, bid1, io1).store;
    var g := s.bids[bid1].gigId;
    StepKeepsGigs(s, HireRequest(caller1, bid1, io1));
    RunKeepsGigs(s1, between);
    var s2 := Run(s1, between);
    assert s2.gigs[g].owner == s1.gigs[g].owner == s.gigs[g].owner;
    BidRoutes.HireOnAssignedGigFails(s2, caller2, bid2, io2);
  }

  /** A hire that succeeds on a gig that is already assigned is impossible,
      whatever runs before it. */
  lemma {:induction false} AssignedGigNeverHiredAgain(s: Store, reqs: seq<Request>, g: GigId)
    requires IdsBelowCounter(s)
    requires g in s.gigs && s.gigs[g].status == Assigned
    ensures g !in HiredGigs(s, reqs)
    decreases |reqs|
  {
    if reqs != [] {
      var req := reqs[0];
      if req.HireRequest? && BidRoutes.Hire(s, req.caller, req.bidId, req.io).result.Ok? {
        assert s.bids[req.bidId].gigId != g;
      }
      StepKeepsGigs(s, req);
      AssignedGigNeverHiredAgain(Step(s, req), reqs[1..], g);
    }
  }

  /** No double hire: in any interleaving of requests, at most one hire per
      gig succeeds. */
  lemma {:induction false} AtMostOneSuccessfulHirePerGig(s: Store, reqs: seq<Request>)
    requires IdsBelowCounter(s)
    ensures forall i, j :: 0 <= i < j < |HiredGigs(s, reqs)| ==> HiredGigs(s, reqs)[i] != HiredGigs(s, reqs)[j]
    decreases |reqs|
  {
    if reqs != [] {
      var req := reqs[0];
      var s1 := Step(s, req);
      var head := HiredBy(s, req);
      var tail := HiredGigs(s1, reqs[1..]);
      StepKeepsGigs(s, req);
      AtMostOneSuccessfulHirePerGig(s1, reqs[1..]);
      if head != [] {
        var g := head[0];
        assert s1.gigs[g].status == Assigned;
        AssignedGigNeverHiredAgain(s1, reqs[1..], g);
      }
      assert HiredGigs(s, reqs) == head + tail;
    }
  }

  /** From the service's empty start, whatever requests interleave, split
      intakes included, no gig is hired twice. */
  lemma NoDoubleHireFromStart(reqs: seq<Request>)
    ensures var hired := HiredGigs(EmptyStore, reqs);
      forall i, j :: 0 <= i < j < |hired| ==> hired[i] != hired[j]
  {
    AtMostOneSuccessfulHirePerGig(EmptyStore, reqs);
  }
}

=== FILE: listing.dfy ===
/** The "find matching documents, sort by createdAt descending" query that
    both listings run against the store. */
module Listing {
  import opened Records

  /** Keys never increase along the sequence: newest first. Documents with
      equal timestamps may appear in either order. */
  ghost predicate NewestFirst<T>(xs: seq<Entry<T>>, key: T -> int) {
    forall i, j :: 0 <= i < j < |xs| ==> key(xs[i].doc) >= key(xs[j].doc)
  }

  /** No identity occurs twice. */
  ghost predicate DistinctIds<T>(xs: seq<Entry<T>>) {
    forall i, j :: 0 <= i < j < |xs| ==> xs[i].id != xs[j].id
  }

  /** Places `e` into a newest-first sequence, keeping it newest first. */
  function InsertNewestFirst<T>(e: Entry<T>, xs: seq<Entry<T>>, key: T -> int): (r: seq<Entry<T>>)
    requires NewestFirst(xs, key)
    ensures multiset(r) == multiset(xs) + multiset{e}
    ensures NewestFirst(r, key)
  {
    if xs == [] || key(xs[0].doc) <= key(e.doc) then
      [e] + xs
    else
      var rest := InsertNewestFirst(e, xs[1..], key);
      assert xs == [xs[0]] + xs[1..];
      forall k | 0 <= k < |rest|
        ensures key(xs[0].doc) >= key(rest[k].doc)
      {
        assert rest[k] in multiset(rest);
        if rest[k] != e {
          assert rest[k] in multiset(xs[1..]);
          var j :| 0 <= j < |xs[1..]| && xs[1..][j] == rest[k];
          assert xs[j + 1] == rest[k];
        }
      }
      [xs[0]] + rest
  }

  /** Inserting an entry whose identity is new keeps identities distinct. */
  lemma InsertKeepsIdsDistinct<T>(e: Entry<T>, xs: seq<Entry<T>>, key: T -> int)
    requires NewestFirst(xs, key)
    requires DistinctIds(xs)
    requires forall i :: 0 <= i < |xs| ==> xs[i].id != e.id
    ensures DistinctIds(InsertNewestFirst(e, xs, key))
  {
    var r := InsertNewestFirst(e, xs, key);
    forall i, j | 0 <= i < j < |r|
      ensures r[i].id != r[j].id
    {
      var ms := multiset(xs) + multiset{e};
      if r[i] == r[j] {
        MultisetCountsTwice(r, i, j);
        assert multiset(r)[r[i]] >= 2;
        if r[i] != e {
          assert multiset(xs)[r[i]] >= 2;
          var a :| 0 <= a < |xs| && xs[a] == r[i];
          MultisetCountOnceIfDistinct(xs, a);
        }
      } else {
        assert r[i] in multiset(xs) + multiset{e};
        assert r[j] in multiset(xs) + multiset{e};
        if r[i] == e {
          var b :| 0 <= b < |xs| && xs[b] == r[j];
        } else if r[j] == e {
          var a :| 0 <= a < |xs| && xs[a] == r[i];
        } else {
          var a :| 0 <= a < |xs| && xs[a] == r[i];
          var b :| 0 <= b < |xs| && xs[b] == r[j];
        }
      }
    }
  }

  lemma {:induction false} MultisetCountsTwice<T>(xs: seq<T>, i: int, j: int)
    requires 0 <= i < j < |xs| && xs[i] == xs[j]
    ensures multiset(xs)[xs[i]] >= 2
  {
    assert xs == xs[..j] + [xs[j]] + xs[j+1..];
    assert xs[i] in xs[..j];
  }

  lemma MultisetCountOnceIfDistinct<T>(xs: seq<Entry<T>>, a: int)
    requires DistinctIds(xs)
    requires 0 <= a < |xs|
    ensures multiset(xs)[xs[a]] == 1
  {
    assert xs == xs[..a] + [xs[a]] + xs[a+1..];
    assert xs[a] !in xs[..a];
    assert xs[a] !in xs[a+1..];
  }

  /** The documents of `m` that satisfy `keep`, each with its identity, in
      newest-first order of `key`: every selected document exactly once,
      nothing else. */
  method CollectNewestFirst<T(!new)>(m: map<nat, T>, keep: T -> bool, key: T -> int)
    returns (r: seq<Entry<T>>)
    ensures forall e :: e in r <==> e.id in m && e.doc == m[e.id] && keep(e.doc)
    ensures DistinctIds(r)
    ensures NewestFirst(r, key)
  {
    var todo := m.Keys;
    r := [];
    while todo != {}
      invariant todo <= m.Keys
      invariant forall e :: e in r <==> e.id in m && e.id !in todo && e.doc == m[e.id] && keep(e.doc)
      invariant DistinctIds(r)
      invariant NewestFirst(r, key)
      decreases todo
    {
      var id :| id in todo;
      if keep(m[id]) {
        var e, r0 := Entry(id, m[id]), r;
        InsertKeepsIdsDistinct(e, r0, key);
        r := InsertNewestFirst(e, r0, key);
        forall x
          ensures x in r <==> x in r0 || x == e
        {
          assert x in r <==> x in multiset(r);
          assert x in r0 <==> x in multiset(r0);
        }
      }
      todo := todo - {id};
    }
  }
}

=== FILE: records.dfy ===
/** The in-memory record store the bid and gig handlers work on: gigs, bids,
    their statuses, the handlers' named failures, and the consistency
    invariant every reachable store keeps. */
module Records {

  /** Opaque document identities. The database's ObjectIds are modelled as
      natural numbers handed out by the store's own counter. */
  type UserId = nat
  type GigId = nat
  type BidId = nat

  datatype Option<T> = None | Some(value: T)

  /** A gig accepts bids only while it is `Open`; hiring moves it to `Assigned`. */
  datatype GigStatus = Open | Assigned

  /** A bid starts `Pending`; `Hired` and `Rejected` are terminal. */
  datatype BidStatus = Pending | Hired | Rejected

  datatype Gig = Gig(
    owner: UserId,
    title: string,
    description: string,
    budget: int,
    status: GigStatus,
    createdAt: int)

  datatype Bid = Bid(
    gigId: GigId,
    freelancerId: UserId,
    message: string,
    price: int,
    status: BidStatus,
    createdAt: int)

  /** The two collections, plus the counter that yields fresh identities. */
  datatype Store = Store(gigs: map<GigId, Gig>, bids: map<BidId, Bid>, nextId: nat)

  /** A document together with its identity, as the handlers return it. */
  datatype Entry<T> = Entry(id: nat, doc: T)

  /** Every error response the handlers can produce, one constructor per
      distinct message. */
  datatype Failure =
    | MissingFields
    | GigNotFound
    | GigNotOpen
    | AlreadyBid
    | OwnGig
    | NotAuthorizedToView
    | BidNotFound
    | NotAuthorizedToHire
    | GigAlreadyAssigned
    | BidAlreadyProcessed
  {
    /** The HTTP status code the handler answers with. */
    function HttpStatus(): int {
      match this
      case GigNotFound | BidNotFound => 404
      case NotAuthorizedToView | NotAuthorizedToHire => 403
      case _ => 400
    }

    function Message(): string {
      match this
      case MissingFields => "Please provide all fields"
      case GigNotFound => "Gig not found"
      case GigNotOpen => "Gig is not open for bidding"
      case AlreadyBid => "You have already bid on this gig"
      case OwnGig => "You cannot bid on your own gig"
      case NotAuthorizedToView => "Not authorized to view these bids"
      case BidNotFound => "Bid not found"
      case NotAuthorizedToHire => "Not authorized to hire for this gig"
      case GigAlreadyAssigned => "Gig is already assigned"
      case BidAlreadyProcessed => "Bid is already processed"
    }
  }

  datatype Result<T> = Ok(value: T) | Err(failure: Failure)

  /** What a state-changing handler produces: its response and the store
      afterwards. A failed handler hands back the store it was given. */
  datatype Reply<T> = Reply(result: Result<T>, store: Store)

  const EmptyStore: Store := Store(map[], map[], 0)

  /** The owner check shared by the bid listing and the hire handler. */
  predicate IsOwner(g: Gig, user: UserId) {
    g.owner == user
  }

  // ---------------------------------------------------------------------
  // The consistency invariant
  // ---------------------------------------------------------------------

  /** Every identity in use is below the counter, so the counter is fresh. */
  ghost predicate IdsBelowCounter(s: Store) {
    && (forall g :: g in s.gigs ==> g < s.nextId)
    && (forall b :: b in s.bids ==> b < s.nextId)
  }

  /** Gigs are never deleted, so a bid's gig always exists. */
  ghost predicate BidsReferenceGigs(s: Store) {
    forall b :: b in s.bids ==> s.bids[b].gigId in s.gigs
  }

  /** At most one bid per (gig, freelancer) pair. */
  ghost predicate OneBidPerFreelancer(s: Store) {
    forall b1, b2 ::
      b1 in s.bids && b2 in s.bids
      && s.bids[b1].gigId == s.bids[b2].gigId
      && s.bids[b1].freelancerId == s.bids[b2].freelancerId
      ==> b1 == b2
  }

  /** No owner holds a bid on their own gig. */
  ghost predicate NoSelfBids(s: Store) {
    forall b :: b in s.bids && s.bids[b].gigId in s.gigs ==>
      s.bids[b].freelancerId != s.gigs[s.bids[b].gigId].owner
  }

  /** A bid is pending exactly while its gig is open: no pending bid
      survives assignment, and no bid of an open gig has been decided. */
  ghost predicate PendingIffOpen(s: Store) {
    forall b :: b in s.bids && s.bids[b].gigId in s.gigs ==>
      (s.bids[b].status == Pending <==> s.gigs[s.bids[b].gigId].status == Open)
  }

  /** At most one hired bid per gig. */
  ghost predicate AtMostOneHired(s: Store) {
    forall b1, b2 ::
      b1 in s.bids && b2 in s.bids
      && s.bids[b1].status == Hired && s.bids[b2].status == Hired
      && s.bids[b1].gigId == s.bids[b2].gigId
      ==> b1 == b2
  }

  /** An assigned gig has a hired bid. */
  ghost predicate AssignedHasWinner(s: Store) {
    forall g :: g in s.gigs && s.gigs[g].status == Assigned ==>
      exists b :: b in s.bids && s.bids[b].gigId == g && s.bids[b].status == Hired
  }

  ghost predicate Valid(s: Store) {
    && IdsBelowCounter(s)
    && BidsReferenceGigs(s)
    && OneBidPerFreelancer(s)
    && NoSelfBids(s)
    && PendingIffOpen(s)
    && AtMostOneHired(s)
    && AssignedHasWinner(s)
  }

  /** In a valid store every gig is in one of the two shapes of the hiring
      state machine: open with only pending bids, or assigned with exactly
      one hired bid and every other bid rejected. */
  lemma ValidGigShape(s: Store, g: GigId)
    requires Valid(s)
    requires g in s.gigs
    ensures s.gigs[g].status == Open ==>
      forall b :: b in s.bids && s.bids[b].gigId == g ==> s.bids[b].status == Pending
    ensures s.gigs[g].status == Assigned ==>
      exists w :: w in s.bids && s.bids[w].gigId == g && s.bids[w].status == Hired
        && forall b :: b in s.bids && s.bids[b].gigId == g && b != w ==> s.bids[b].status == Rejected
  {
    if s.gigs[g].status == Assigned {
      var w :| w in s.bids && s.bids[w].gigId == g && s.bids[w].status == Hired;
      forall b | b in s.bids && s.bids[b].gigId == g && b != w
        ensures s.bids[b].status == Rejected
      {
        assert s.bids[b].status != Pending;
        assert s.bids[b].status != Hired;
      }
    }
  }

  lemma EmptyStoreValid()
    ensures Valid(EmptyStore)
  {
  }
}

=== FILE: scenario.dfy ===
/** A worked example of the hiring state machine, on a concrete store. */
module HireScenario {
  import opened Records
  import opened BidRoutes

  /** Gig 0 (budget 500, owner 1) with bids 1 (freelancer 2, price 400) and
      2 (freelancer 3, price 450), both pending. */
  const Before: Store := Store(
    map[0 := Gig(1, "Logo", "Design a logo", 500, Open, 10)],
    map[1 := Bid(0, 2, "Fast turnaround", 400, Pending, 11),
        2 := Bid(0, 3, "Ten years of logos", 450, Pending, 12)],
    3)

  /** The owner hires bid 1: bid 1 is hired, bid 2 rejected, the gig
      assigned, freelancer 2 alone is notified with the gig's title and the
      price 400, and hiring bid 2 afterwards fails. */
  lemma OwnerHiresFirstBid()
    ensures var h := Hire(Before, 1, 1, true);
      && h.result.Ok?
      && h.store.gigs[0].status == Assigned
      && h.store.bids[1].status == Hired
      && h.store.bids[2].status == Rejected
      && h.notice == Some(HiredEvent(2, HiredText("Logo"), 0, "Logo", 1, 400))
      && Hire(h.store, 1, 2, true).result == Err(GigAlreadyAssigned)
  {
    var h := Hire(Before, 1, 1, true);
    assert h.store.bids[2].gigId == 0;
  }

  /** The example's starting store is consistent. */
  lemma BeforeIsValid()
    ensures Valid(Before)
  {
    assert Before.bids[1].status == Pending && Before.bids[2].status == Pending;
  }

  /** The store right after the owner hires bid 1. */
  const AfterHire: Store := Store(
    map[0 := Gig(1, "Logo", "Design a logo", 500, Assigned, 10)],
    map[1 := Bid(0, 2, "Fast turnaround", 400, Hired, 11),
        2 := Bid(0, 3, "Ten years of logos", 450, Rejected, 12)],
    3)

  lemma HireGivesAfterHire()
    ensures Hire(Before, 1, 1, false).store == AfterHire
  {
    var h := Hire(Before, 1, 1, false).store;
    assert h.bids.Keys == AfterHire.bids.Keys;
    assert h.bids[1] == AfterHire.bids[1];
    assert h.bids[2] == AfterHire.bids[2];
  }

  const LateForm: BidForm := BidForm(Some(0), "Still available", Some(300))

  /** A bid whose checks read the store before the hire of bid 1 commits,
      and whose insert lands after it, leaves a pending bid on the assigned
      gig: the hire's bulk rejection never saw it. */
  lemma LateBidOnAssignedGig()
    ensures var late := SubmitBidUnisolated(Before, Hire(Before, 1, 1, false).store, 4, LateForm, 13);
      && late.result.Ok?
      && late.store.gigs[0].status == Assigned
      && late.store.bids[3].gigId == 0
      && late.store.bids[3].status == Pending
      && !PendingIffOpen(late.store)
  {
    HireGivesAfterHire();
    assert !HasBidOn(Before, 4, 0);
    var late := SubmitBidUnisolated(Before, AfterHire, 4, LateForm, 13);
    assert late.store.bids[3].gigId in late.store.gigs;
  }

  /** Run as one atomic step after the hire, the same submission is refused
      because the gig is no longer open, and the store stays consistent. */
  lemma LateBidRefusedWhenAtomic()
    ensures SubmitBid(Hire(Before, 1, 1, false).store, 4, LateForm, 13).result == Err(GigNotOpen)
  {
    HireGivesAfterHire();
  }
}

=== FILE: title_search.dfy ===
/** The gig listing's title filter: a case-insensitive match of the search
    term inside the title. The term is taken literally (as a substring), and
    case is folded over the ASCII letters. */
module TitleSearch {

  function LowerChar(c: char): char {
    if 'A' <= c <= 'Z' then (c as int + 32) as char else c
  }

  function UpperChar(c: char): char {
    if 'a' <= c <= 'z' then (c as int - 32) as char else c
  }

  function Lower(s: string): string {
    seq(|s|, i requires 0 <= i < |s| => LowerChar(s[i]))
  }

  function Upper(s: string): string {
    seq(|s|, i requires 0 <= i < |s| => UpperChar(s[i]))
  }

  /** `needle` occurs at position `i` of `hay`. */
  predicate OccursAt(needle: string, hay: string, i: int) {
    0 <= i && i + |needle| <= |hay| && hay[i..i + |needle|] == needle
  }

  predicate Contains(hay: string, needle: string) {
    exists i :: 0 <= i <= |hay| - |needle| && OccursAt(needle, hay, i)
  }

  predicate Matches(title: string, search: string) {
    Contains(Lower(title), Lower(search))
  }

  /** Folding to upper case and back to lower case loses nothing. */
  lemma LowerOfUpper(s: string)
    ensures Lower(Upper(s)) == Lower(s)
  {
    assert forall i :: 0 <= i < |s| ==> LowerChar(UpperChar(s[i])) == LowerChar(s[i]);
  }

  /** `a` and `b` differ at most in the case of their letters, as
      "LoGo" and "logo" do. */
  predicate SameUpToCase(a: string, b: string) {
    |a| == |b| && forall i :: 0 <= i < |a| ==> LowerChar(a[i]) == LowerChar(b[i])
  }

  /** Changing the case of any letters of the title or of the term never
      changes whether they match. */
  lemma MatchIgnoresCase(title: string, title': string, search: string, search': string)
    requires SameUpToCase(title, title') && SameUpToCase(search, search')
    ensures Matches(title, search) == Matches(title', search')
  {
    assert Lower(title) == Lower(title');
    assert Lower(search) == Lower(search');
  }

  /** In particular, upper- or lower-casing a whole title or term. */
  lemma MatchIgnoresWholeCase(title: string, search: string)
    ensures Matches(Upper(title), search) == Matches(title, search)
    ensures Matches(Lower(title), search) == Matches(title, search)
    ensures Matches(title, Upper(search)) == Matches(title, search)
    ensures Matches(title, Lower(search)) == Matches(title, search)
  {
    LowerOfUpper(title);
    LowerOfUpper(search);
    LowerIdempotent(title);
    LowerIdempotent(search);
  }

  lemma LowerIdempotent(s: string)
    ensures Lower(Lower(s)) == Lower(s)
  {
    assert forall i :: 0 <= i < |s| ==> LowerChar(LowerChar(s[i])) == LowerChar(s[i]);
  }

  /** Every title contains itself, in any case. */
  lemma TitleMatchesItself(title: string)
    ensures Matches(title, title)
    ensures Matches(Upper(title), title)
  {
    assert OccursAt(Lower(title), Lower(title), 0);
    MatchIgnoresWholeCase(title, title);
  }

  /** The empty term matches every title. */
  lemma EmptyTermMatchesAll(title: string)
    ensures Matches(title, "")
  {
    assert OccursAt(Lower(""), Lower(title), 0);
  }
}
